=== FILE: README.md ===
# A verified model of the todo-frontend task client

This project models the client-side logic of a small React to-do
application in Dafny and proves properties of that model. The model covers
the state of the task collection, held by the `useTodos` hook as the triple
(ordered task list, loading flag, error message), and its four transitions:
fetch (which is also `refetch` and `filterTodos`), create, update and
delete. It also covers the view logic around that state:

- the App shell turns four filter strings into list criteria and debounces
  their changes with a 300 ms timer;
- the App shell toggles the stats panel and labels and empties the list
  view;
- the new-task form guards blank titles, builds its draft and resets or
  keeps its fields;
- each task row builds its toggle and save payloads, keeps an edit buffer
  with edit-mode transitions, and works out the "due today" and "overdue"
  flags;
- the filter bar decides when a filter is active and which values its
  selectors can produce.

Every remote call is a parameter `Remote<T> = Success(value) | Failure`
giving the settled outcome of that call. The client never looks at why a
call failed. Each transition is a total function of the state and that
outcome. A mutation returns `Settled(state, rejected)`, where `rejected`
says whether the failure is re-raised to the caller. The clock and the
date parser are parameters too:

- the debouncer carries an abstract `now`;
- the due-date flags take `now` and an `instantOf` function standing for
  `new Date(d)`, where `None` means an invalid date;
- the edit buffer takes a `toInputDate` function standing for date-fns
  `format(…, 'yyyy-MM-dd')`.

Files, one module each, following the source files:
`js_string.dfy` (JavaScript truthiness and `trim`), `todos.dfy`
(src/types/Todos.ts), `use_todos.dfy` (src/hooks/useTodos.ts),
`filter_bar.dfy`, `todo_form.dfy`, `todo_item.dfy` (src/components/) and
`app.dfy` (src/App.tsx).

Three facts about the code that shape the model:

- The hook starts with `loading = true` (src/hooks/useTodos.ts:23).
- `refetch` is `fetchTodos` itself. Called without arguments, it sends no
  criteria (src/hooks/useTodos.ts:84).
- On mount the list is loaded twice: once by the hook's own effect with no
  criteria, and once more 300 ms later by the App's debounce effect with
  an empty criteria record (`MountLoadsUnfiltered`).

Observation, proved against a service that applies update payloads field
by field: clearing the description or the due date in a row's edit form
cannot remove the stored value. The empty string is sent as an absent
field, and an absent field means "leave unchanged"
(`ClearedFieldSurvivesSave`).

## Model

| member | source | states |
|---|---|---|
| JsString.TrimStart | src/components/TodoForm.tsx:22 | the result is a suffix of the input, every dropped character is JavaScript whitespace, and the result does not start with whitespace |
| JsString.TrimEnd | src/components/TodoForm.tsx:22 | the result is a prefix of the input, every dropped character is whitespace, and the result does not end with whitespace |
| JsString.Trim | src/components/TodoForm.tsx:22 | `trim()` is empty exactly when every character is whitespace; a non-empty result neither starts nor ends with whitespace |
| JsString.TrimIsSlice | src/components/TodoForm.tsx:22 | what `trim()` keeps is a contiguous slice of the string with only whitespace cut from either side |
| JsString.IsBlank | src/components/TodoForm.tsx:22 | `!s.trim()` holds exactly when every character is whitespace |
| Todos.OrAbsent | src/components/TodoForm.tsx:28-29 | `s \|\| undefined` is absent exactly for the empty string and otherwise carries `s` unchanged |
| Todos.ParsePriority | src/types/Todos.ts:6 | exactly the three names low, medium, high parse, and each parses to the priority of that name |
| Todos.PriorityNameRoundTrip | src/types/Todos.ts:6 | every priority's name parses back to it, and distinct priorities have distinct names |
| UseTodos.Prepend | src/hooks/useTodos.ts:44 | a successful create adds one task at the head; the tail is the old list |
| UseTodos.ReplaceById | src/hooks/useTodos.ts:55 | length and order are kept; each position whose id matches holds the returned record and every other position is unchanged |
| UseTodos.RemoveById | src/hooks/useTodos.ts:66 | the result is an order-preserving subsequence of the list; it holds no task with the id and every other task with its full multiplicity |
| UseTodos.BeginFetch | src/hooks/useTodos.ts:28-29 | while a fetch is in flight the list is untouched, loading is on and the error is cleared |
| UseTodos.EndFetch | src/hooks/useTodos.ts:30-37 | loading ends either way; success replaces the list with the server's; failure keeps the list and sets "Failed to fetch todos", without re-raising |
| UseTodos.Fetch | src/hooks/useTodos.ts:26-38 | a successful fetch gives (server list, not loading, no error) whatever the prior state; a failed one gives (old list, not loading, fetch error) |
| UseTodos.BeginMutation | src/hooks/useTodos.ts:42 | before its request, a mutation clears the error and changes neither the list nor the loading flag |
| UseTodos.CreateTodo | src/hooks/useTodos.ts:40-49 | success prepends the returned record with no error; failure keeps the list, sets "Failed to create todo" and rejects; loading is never touched |
| UseTodos.UpdateTodo | src/hooks/useTodos.ts:51-60 | success replaces the matching tasks with the returned record with no error; failure keeps the list, sets "Failed to update todo" and rejects; loading is never touched |
| UseTodos.DeleteTodo | src/hooks/useTodos.ts:62-71 | success removes the tasks with that id with no error; failure keeps the list, sets "Failed to delete todo" and rejects; loading is never touched |
| UseTodos.MountFetchSettles | src/hooks/useTodos.ts:22-24 | the initial state is (empty, loading, no error); the mount fetch ends loading, and when it fails the list stays empty with the fetch error |
| UseTodos.FetchIdempotent | src/hooks/useTodos.ts:26-38 | two serial fetches answered the same way leave the same state as one |
| UseTodos.ReplaceKeepsIds | src/hooks/useTodos.ts:55 | when the returned record carries the requested id, an update keeps the id sequence, and with it id uniqueness |
| UseTodos.ReplaceAbsentIsIdentity | src/hooks/useTodos.ts:55 | updating an id the list does not hold leaves the list unchanged |
| UseTodos.ReplaceRevert | src/hooks/useTodos.ts:55 | with unique ids, writing back the record that was replaced restores the list, so an update touches one position only |
| UseTodos.RemoveAbsentIsIdentity | src/hooks/useTodos.ts:66 | deleting an id the list does not hold leaves the list unchanged |
| UseTodos.RemoveIdempotent | src/hooks/useTodos.ts:66 | deleting the same id a second time changes nothing |
| UseTodos.RemoveKeepsUniqueIds | src/hooks/useTodos.ts:66 | a delete keeps the ids of the list unique |
| UseTodos.RemoveOnePresent | src/hooks/useTodos.ts:66 | with unique ids, deleting a present id removes exactly one task |
| UseTodos.DeleteUndoesCreate | src/hooks/useTodos.ts:44 | creating a task with a new id keeps ids unique, and deleting that id afterwards restores the old list with no error |
| FilterBar.ClearButtonShown | src/components/FilterBar.tsx:27 | the clear button shows exactly when the inputs differ from the cleared inputs (empty search, priority and category, completion "all") |
| FilterBar.HasActiveFilters | src/components/FilterBar.tsx:27 | a filter is active exactly when the inputs differ from ('', '', '', 'all') |
| FilterBar.PrioritySelectionIsValid | src/components/FilterBar.tsx:53-66 | selector values are "all", "false" or "true" for completion; priority is "" or a valid priority name |
| TodoForm.Draft | src/components/TodoForm.tsx:26-30 | the draft carries the title exactly as typed, priority and category unchanged, a non-empty description or due date as typed, and an empty one as absent |
| TodoForm.DraftRoundTrip | src/components/TodoForm.tsx:26-30 | the form fields can be read back from the draft, so the normalisation loses nothing |
| TodoForm.BeginSubmit | src/components/TodoForm.tsx:20-30 | a blank title submits nothing and changes nothing; otherwise the form goes into loading and submits the draft of its fields |
| TodoForm.EndSubmit | src/components/TodoForm.tsx:31-43 | loading ends either way; success resets to the mount defaults and calls onCancel; failure keeps the fields, skips onCancel and swallows the error |
| TodoForm.SuccessRestoresMountedForm | src/components/TodoForm.tsx:11-17 | after a successful submission the form equals the mounted form ('' / '' / medium / general / '') |
| TodoForm.FailureKeepsFields | src/components/TodoForm.tsx:39-43 | after a failed submission the fields are as they were and the button is enabled again |
| TodoForm.BlankTitleGuard | src/components/TodoForm.tsx:137 | a whitespace-only title both disables the button and stops the submission |
| TodoForm.SubmitDisabled | src/components/TodoForm.tsx:137 | the submit button is disabled exactly while a submission is in flight or the title is all whitespace |
| TodoItem.BufferOf | src/components/TodoItem.tsx:14-20 | the buffer copies title, priority and category, shows a missing description as '' and a present one as is, shows a missing or empty due date as '' and a present one through the input-date formatter |
| TodoItem.StartEdit | src/components/TodoItem.tsx:149 | the edit button enters edit mode and keeps the buffer as it was |
| TodoItem.Mount | src/components/TodoItem.tsx:13-20 | a fresh row is not editing and its buffer shows the task's title, priority, category and description (absent as '') |
| TodoItem.TogglePayload | src/components/TodoItem.tsx:28-30 | the toggle payload's only field is `completed`, the negation of the task's flag |
| TodoItem.SavePayload | src/components/TodoItem.tsx:34-38 | the save payload takes title, priority and category from the buffer, sends a non-empty description or due date as typed and leaves out an empty one, and never carries `completed` |
| TodoItem.FinishSave | src/components/TodoItem.tsx:39-42 | success leaves edit mode; failure leaves the row exactly as it was, still editing; the buffer is kept either way |
| TodoItem.CancelEdit | src/components/TodoItem.tsx:45-54 | cancelling leaves edit mode |
| TodoItem.CancelRestoresMount | src/components/TodoItem.tsx:45-54 | whatever was typed, cancelling gives the state a fresh mount of the current task has |
| TodoItem.UntouchedSaveEchoesTask | src/components/TodoItem.tsx:32-38 | saving an unedited buffer sends the task's own title, priority, category and non-empty description, and no completion flag |
| TodoItem.DayMonotone | src/components/TodoItem.tsx:57 | an earlier instant never falls on a later calendar day |
| TodoItem.Flags | src/components/TodoItem.tsx:56-57 | never both due today and overdue; neither without a due date; for a valid date, due today means today's calendar day and overdue means an earlier day |
| App.BuildCriteria | src/App.tsx:36-41 | search, priority and category are present exactly when non-empty and pass through untrimmed; completion is absent exactly for "all", otherwise it is `value == "true"` |
| App.CriteriaRoundTrip | src/App.tsx:36-41 | every criteria record without an empty string is built from some filter inputs |
| App.InputsRoundTrip | src/App.tsx:36-41 | on selector-produced completion values the builder is injective: the inputs can be read back from the criteria |
| App.ActiveIffConstrained | src/App.tsx:38-41 | the filter bar's "active" predicate holds exactly when the built criteria are non-empty |
| App.ClearFiltersResets | src/App.tsx:58-63 | clearing sets ('', '', '', 'all'), leaves no filter active and builds the empty criteria |
| App.ApplyEdit | src/App.tsx:150-156 | each filter setter changes only its own field, and clearing resets all four to ('', '', '', 'all') |
| App.Edit | src/App.tsx:34-47 | an edit that changes the inputs cancels the pending timer and sets a new one a full 300 units ahead; an edit that leaves them equal changes nothing |
| App.Elapse | src/App.tsx:35-44 | time passing fires the pending timer exactly when its deadline is reached, issuing one load built from the current inputs |
| App.Unmount | src/App.tsx:46 | teardown clears the pending timer |
| App.UnmountCancels | src/App.tsx:46 | after teardown no wait issues a load |
| App.MountLoadsUnfiltered | src/App.tsx:34-47 | without edits, the mount timer issues one load with empty criteria after 300 units and none before |
| App.MountApp | src/App.tsx:23-31 | the first render has the hook's loading state, cleared filter inputs with the clock at mount time and the first timer pending a full delay later, and form and stats panel hidden |
| App.AppMountLoadsTwice | src/hooks/useTodos.ts:73-75 | without edits the list loads twice: the hook's mount fetch, then one unfiltered load 300 units later and none before or after |
| App.Feed | src/App.tsx:34-47 | running edits and waits through the debouncer ends with the inputs the edits leave |
| App.SelectorEditsKeepOptions | src/components/FilterBar.tsx:48-67 | edits the filter bar can produce keep both selectors on their options, so the priority criterion is absent or a valid priority name |
| App.ClearedInputsFromSelectors | src/App.tsx:28-31 | the mount inputs are selector options |
| App.SelectorsValidAfterMount | src/components/FilterBar.tsx:48-67 | from the mount inputs, any run of selector edits keeps both selectors on their options, so the priority criterion is absent or a valid priority name |
| App.CoalescesToOneLoad | src/App.tsx:34-47 | changes spaced closer than 300 units and then a quiet period issue exactly one load, with the inputs as the last change left them |
| App.ToggleStats | src/App.tsx:49-56 | every toggle flips the flag; a request goes out only when hidden goes to shown; success replaces the snapshot and failure keeps it |
| App.ToggleTwice | src/App.tsx:65-70 | two toggles restore the flag and issue exactly one request |
| App.StatsCardsAfterToggle | src/App.tsx:65-70 | opening the panel shows the cards after a successful request, and after a failed one only if an earlier snapshot is held; closing hides them |
| App.StatsCardsShown | src/App.tsx:106 | the stats cards render exactly while the panel is shown and a snapshot is held |
| App.CountLabel | src/App.tsx:82 | the label is "task" exactly for a count of 1 and "tasks" otherwise |
| App.EmptyState | src/App.tsx:176-187 | the empty panel shows once loading is over and the list is empty; the adjust-filters hint shows exactly when a filter is active, and the add-first button exactly when none is |
| App.EditFilters | src/App.tsx:150-156 | a filter edit changes only the filter inputs and the timer; one that changes the inputs restarts the 300 timer from now, one that leaves them equal changes nothing; the task state waits for the timer |
| App.Wait | src/App.tsx:34-47 | the timer fires exactly when its deadline is reached, sending the criteria built from the current inputs, fetching the list with the reply and consuming the timer; otherwise the list and the timer are untouched; form and stats panel never change |
| App.ToggleStatsPanel | src/App.tsx:65-70 | the panel flag flips; a stats request is sent exactly when the panel opens, and only its success replaces the snapshot; tasks, filters and form flag are untouched |
| App.ToggleForm | src/App.tsx:96 | "Add Task" flips the form flag and leaves tasks, filters and stats panel untouched |
| App.OpenForm | src/App.tsx:189 | "Add Your First Task" opens the form and leaves tasks, filters and stats panel untouched |
| App.SubmitNewTask | src/App.tsx:140-143 | a blank title sends nothing and changes nothing; otherwise the form's draft is sent as a create request; a successful create prepends the record, closes the form and resets it; a failed one keeps the list and form fields, sets the create error and leaves the form open; loading, filters and stats panel are untouched |
| App.SaveRow | src/App.tsx:202 | the row's save payload is sent as an update for the row's task; a successful save replaces the task in place, clears the error and leaves edit mode; a failed one keeps the list, sets the update error and keeps the row as it was; loading, filters, form flag and stats panel are untouched |
| App.ToggleRow | src/components/TodoItem.tsx:28-30 | the toggle payload is sent as an update for the task; success replaces the task and clears the error, failure keeps the list and sets the update error, and the rejection escapes uncaught; loading, filters, form flag and stats panel are untouched |
| App.DeleteRow | src/components/TodoItem.tsx:155 | a delete request names the task; success removes it and clears the error, failure keeps the list and sets the delete error, and the rejection escapes uncaught; loading, filters, form flag and stats panel are untouched |
| App.Patched | src/types/Todos.ts:21-28 | a literal partial update keeps the id and creation time, and for each of title, description, completion, priority, category and due date overwrites the field when present and keeps it when absent |
| App.ToggleFlipsOnlyCompleted | src/components/TodoItem.tsx:28-30 | when the service applies the toggle payload literally, only the completion flag (and modification time) of that task changes, and ids stay unique |
| App.ClearedFieldSurvivesSave | src/components/TodoItem.tsx:36-37 | when the service applies the save payload literally, an emptied description keeps its stored value, and so does an emptied due date, each independently of the other field |

## Left out

- src/services/api.ts: the HTTP client. Each call is the `Remote` outcome supplied to a transition. Base URL, paths and request encoding are not behaviour of the client state.
- src/components/Header.tsx: static links, no logic.
- Rendering: JSX markup, CSS classes, icons and `console.error` logging. Messages shown in the empty panel are booleans, not strings.
- Concurrency: overlapping fetches race, and the last response to arrive wins. React also batches state updates. Operations here are applied one after another, and a fetch is split into `BeginFetch`/`EndFetch` so the loading flag can be observed in between.
- Server behaviour: search matching, defaults, id assignment and freshness, and stats aggregation. Lemmas that need a fresh id take it as a precondition. `App.Patched` is an assumed literal partial update, not the service's code.
- Response validation: the client trusts `response.data` to match the TypeScript types without checking it. The model's types assume the data is well-formed, so a priority outside low/medium/high cannot arise here.
- Dates: date-fns formatting and the wall clock. `new Date(d)` and `format` are parameters. Instants are local-clock milliseconds, so time zones are not modelled.
- TodoItem.BufferOf: `format` throws a RangeError for a due date that is not a valid date, so such a row fails to render; the model takes `toInputDate` as a total function and does not model that failure. For the same reason the invalid-date branch of `TodoItem.Flags` is never reached by the real row.
- TodoItem.Flags: `isToday` and `isPast` each read the clock separately. The model uses one `now` for both.
- Number formatting of the task count (`{todos.length}`) is not modelled. Only the task/tasks choice is.

=== FILE: app.dfy ===
/** The application shell (src/App.tsx): it turns the four filter strings
    into list criteria, debounces their changes, toggles the stats panel,
    labels and empties the list view, and wires the form and the rows to the
    task hook. */
module App {
  import opened JsString
  import opened Todos
  import opened UseTodos
  import opened FilterBar
  import TodoForm
  import TodoItem

  // ---------------------------------------------------------------------------
  // Filter criteria

  /** The criteria sent when the debounce timer fires: a field is present
      only when its input constrains something. Search, priority and
      category pass through untouched when non-empty; the completion input
      is omitted for "all" and is otherwise the test `value === 'true'`. */
  function BuildCriteria(f: FilterInputs): (c: Criteria)
    ensures c.search.Some? <==> f.search != ""
    ensures c.priority.Some? <==> f.priority != ""
    ensures c.category.Some? <==> f.category != ""
    ensures c.completed.None? <==> f.completed == "all"
    ensures c.search.Some? ==> c.search.value == f.search
    ensures c.priority.Some? ==> c.priority.value == f.priority
    ensures c.category.Some? ==> c.category.value == f.category
    ensures c.completed.Some? ==> (c.completed.value <==> f.completed == "true")
  {
    Criteria(
      if f.completed != AllSentinel then Some(f.completed == "true") else None,
      if Truthy(f.priority) then Some(f.priority) else None,
      if Truthy(f.category) then Some(f.category) else None,
      if Truthy(f.search) then Some(f.search) else None)
  }

  /** The filter inputs that stand for given criteria. */
  function InputsOf(c: Criteria): FilterInputs {
    FilterInputs(
      c.search.GetOr(""),
      c.priority.GetOr(""),
      c.category.GetOr(""),
      match c.completed
      case None => AllSentinel
      case Some(b) => if b then "true" else "false")
  }

  /** Criteria the builder can produce never hold an empty string. */
  predicate Buildable(c: Criteria) {
    c.search != Some("") && c.priority != Some("") && c.category != Some("")
  }

  /** The builder reaches every buildable criteria record. */
  lemma CriteriaRoundTrip(c: Criteria)
    requires Buildable(c)
    ensures BuildCriteria(InputsOf(c)) == c
  {
  }

  /** On inputs the completion selector can produce, the builder loses
      nothing: distinct selector states ask the service different things. */
  lemma InputsRoundTrip(f: FilterInputs)
    requires f.completed in CompletedOptions
    ensures InputsOf(BuildCriteria(f)) == f
    ensures Buildable(BuildCriteria(f))
  {
  }

  /** The filter bar calls a filter active exactly when the criteria it
      leads to constrain something. */
  lemma ActiveIffConstrained(f: FilterInputs)
    ensures HasActiveFilters(f) <==> BuildCriteria(f) != NoCriteria
  {
  }

  /** A single change the user makes to the filters. Clearing sets all four
      in one handler, so React renders once and the effect runs once. */
  datatype FilterEdit =
    | SearchChanged(search: string)
    | PriorityChanged(priority: string)
    | CategoryChanged(category: string)
    | CompletedChanged(completed: string)
    | ClearFilters

  /** The filter strings on mount and after clearing. */
  const ClearedInputs := FilterInputs("", "", "", AllSentinel)

  /** Each setter changes only its own field; clearing resets all four. */
  function ApplyEdit(f: FilterInputs, e: FilterEdit): (r: FilterInputs)
    ensures e.ClearFilters? ==> r == ClearedInputs
    ensures e.SearchChanged? ==> r == FilterInputs(e.search, f.priority, f.category, f.completed)
    ensures e.PriorityChanged? ==> r == FilterInputs(f.search, e.priority, f.category, f.completed)
    ensures e.CategoryChanged? ==> r == FilterInputs(f.search, f.priority, e.category, f.completed)
    ensures e.CompletedChanged? ==> r == FilterInputs(f.search, f.priority, f.category, e.completed)
  {
    match e
    case SearchChanged(s) => f.(search := s)
    case PriorityChanged(p) => f.(priority := p)
    case CategoryChanged(c) => f.(category := c)
    case CompletedChanged(v) => f.(completed := v)
    case ClearFilters => ClearedInputs
  }

  /** Clearing leaves no filter active, so the next load asks for the whole
      collection. */
  lemma ClearFiltersResets(f: FilterInputs)
    ensures ApplyEdit(f, ClearFilters) == FilterInputs("", "", "", "all")
    ensures !HasActiveFilters(ApplyEdit(f, ClearFilters))
    ensures BuildCriteria(ApplyEdit(f, ClearFilters)) == NoCriteria
  {
  }

  // ---------------------------------------------------------------------------
  // Debounced loading

  const DebounceDelay := 300

  /** The debounce effect: the current inputs, the clock, and the deadline
      of the pending timer if one is set. */
  datatype Debouncer = Debouncer(inputs: FilterInputs, now: int, deadline: Option<int>)

  /** The effect also runs on mount, so a first timer is pending. */
  function MountDebouncer(now: int): Debouncer {
    Debouncer(ClearedInputs, now, Some(now + DebounceDelay))
  }

  /** An edit that changes the inputs re-runs the effect: the cleanup clears
      the pending timer and a new one is set for a full delay from now. An
      edit that leaves the inputs equal does not re-run it. */
  function Edit(d: Debouncer, e: FilterEdit): (r: Debouncer)
    ensures r.now == d.now && r.inputs == ApplyEdit(d.inputs, e)
    ensures r.inputs != d.inputs ==> r.deadline == Some(d.now + DebounceDelay)
    ensures r.inputs == d.inputs ==> r == d
  {
    var f := ApplyEdit(d.inputs, e);
    if f == d.inputs then d else Debouncer(f, d.now, Some(d.now + DebounceDelay))
  }

  /** Time passes. The pending timer fires when its deadline is reached,
      issuing one load with the inputs current at that moment. */
  function Elapse(d: Debouncer, dt: nat): (r: (Debouncer, Option<Criteria>))
    ensures r.0.now == d.now + dt && r.0.inputs == d.inputs
    ensures r.1.Some? <==> d.deadline.Some? && d.deadline.value <= d.now + dt
    ensures r.1.Some? ==> r.1.value == BuildCriteria(d.inputs) && r.0.deadline == None
    ensures r.1.None? ==> r.0.deadline == d.deadline
  {
    var later := d.now + dt;
    match d.deadline
    case Some(t) =>
      if t <= later then (Debouncer(d.inputs, later, None), Some(BuildCriteria(d.inputs)))
      else (d.(now := later), None)
    case None => (d.(now := later), None)
  }

  /** With no edit after mount, the first quiet period issues one load with
      no criteria, on top of the hook's own mount fetch. */
  lemma MountLoadsUnfiltered(now: int, dt: nat)
    requires dt >= DebounceDelay
    ensures Elapse(MountDebouncer(now), dt).1 == Some(NoCriteria)
    ensures Elapse(MountDebouncer(now), DebounceDelay - 1).1 == None
  {
  }

  /** Tearing the view down runs the cleanup: the pending timer is cleared. */
  function Unmount(d: Debouncer): (r: Debouncer)
    ensures r.deadline == None && r.inputs == d.inputs && r.now == d.now
  {
    d.(deadline := None)
  }

  /** Once the view is torn down, no amount of waiting issues a load. */
  lemma UnmountCancels(d: Debouncer, dt: nat)
    ensures Elapse(Unmount(d), dt).1 == None
  {
  }

  function ApplyEdits(f: FilterInputs, burst: seq<(FilterEdit, nat)>): FilterInputs
    decreases |burst|
  {
    if burst == [] then f else ApplyEdits(ApplyEdit(f, burst[0].0), burst[1..])
  }

  /** An edit the filter bar can produce: a priority or completion value is
      one of its selector's options. */
  predicate SelectorEdit(e: FilterEdit) {
    match e
    case PriorityChanged(p) => p in PriorityOptions
    case CompletedChanged(v) => v in CompletedOptions
    case _ => true
  }

  /** From inputs on the selectors' options, any run of edits the filter bar
      can produce keeps both selectors on one of their options, so the
      priority criterion is always absent or a valid priority name. */
  lemma {:induction false} SelectorEditsKeepOptions(f: FilterInputs, burst: seq<(FilterEdit, nat)>)
    requires FromSelectors(f)
    requires forall k :: 0 <= k < |burst| ==> SelectorEdit(burst[k].0)
    ensures FromSelectors(ApplyEdits(f, burst))
    ensures var c := BuildCriteria(ApplyEdits(f, burst));
      c.priority.None? || ParsePriority(c.priority.value).Some?
    decreases |burst|
  {
    if burst != [] {
      assert SelectorEdit(burst[0].0);
      var rest := burst[1..];
      assert forall k :: 0 <= k < |rest| ==> SelectorEdit(rest[k].0) by {
        forall k | 0 <= k < |rest|
          ensures SelectorEdit(rest[k].0)
        {
          assert rest[k] == burst[k + 1];
        }
      }
      SelectorEditsKeepOptions(ApplyEdit(f, burst[0].0), rest);
    }
    PrioritySelectionIsValid(ApplyEdits(f, burst));
  }

  /** The mount inputs are themselves selector options. */
  lemma ClearedInputsFromSelectors()
    ensures FromSelectors(ClearedInputs)
  {
  }

  /** Whatever the user picks after mount, the selectors hold one of their
      options and the priority criterion is absent or a valid priority name. */
  lemma SelectorsValidAfterMount(burst: seq<(FilterEdit, nat)>)
    requires forall k :: 0 <= k < |burst| ==> SelectorEdit(burst[k].0)
    ensures FromSelectors(ApplyEdits(ClearedInputs, burst))
    ensures var c := BuildCriteria(ApplyEdits(ClearedInputs, burst));
      c.priority.None? || ParsePriority(c.priority.value).Some?
  {
    ClearedInputsFromSelectors();
    SelectorEditsKeepOptions(ClearedInputs, burst);
  }

  /** Runs a sequence of edits, each followed by a wait, and collects the
      loads the timer issues; the inputs end as the edits leave them. */
  function Feed(d: Debouncer, burst: seq<(FilterEdit, nat)>): (r: (Debouncer, seq<Criteria>))
    ensures r.0.inputs == ApplyEdits(d.inputs, burst)
    decreases |burst|
  {
    if burst == [] then (d, [])
    else
      var (d2, fired) := Elapse(Edit(d, burst[0].0), burst[0].1);
      var (d3, later) := Feed(d2, burst[1..]);
      (d3, (if fired.Some? then [fired.value] else []) + later)
  }

  /** Every edit of the run changes the inputs it meets. */
  predicate EveryEditChanges(d: Debouncer, burst: seq<(FilterEdit, nat)>)
    decreases |burst|
  {
    || burst == []
    || (&& ApplyEdit(d.inputs, burst[0].0) != d.inputs
        && EveryEditChanges(Elapse(Edit(d, burst[0].0), burst[0].1).0, burst[1..]))
  }

  /** Coalescing: edits that each come sooner than the delay after the one
      before, followed by a quiet period, issue exactly one load, built from
      the inputs as the last edit left them. */
  lemma {:induction false} CoalescesToOneLoad(d: Debouncer, burst: seq<(FilterEdit, nat)>)
    requires |burst| > 0 && EveryEditChanges(d, burst)
    requires forall k :: 0 <= k < |burst| - 1 ==> burst[k].1 < DebounceDelay
    requires burst[|burst| - 1].1 >= DebounceDelay
    ensures Feed(d, burst).1 == [BuildCriteria(ApplyEdits(d.inputs, burst))]
    ensures Feed(d, burst).0.deadline == None
    decreases |burst|
  {
    var d1 := Edit(d, burst[0].0);
    var (d2, fired) := Elapse(d1, burst[0].1);
    assert d1.deadline == Some(d.now + DebounceDelay);
    if |burst| == 1 {
      assert fired == Some(BuildCriteria(d1.inputs));
      assert burst[1..] == [];
    } else {
      assert burst[0].1 < DebounceDelay;
      assert fired == None;
      var rest := burst[1..];
      assert forall k :: 0 <= k < |rest| - 1 ==> rest[k].1 < DebounceDelay by {
        forall k | 0 <= k < |rest| - 1
          ensures rest[k].1 < DebounceDelay
        {
          assert rest[k] == burst[k + 1];
        }
      }
      assert rest[|rest| - 1] == burst[|burst| - 1];
      CoalescesToOneLoad(d2, rest);
    }
  }

  // ---------------------------------------------------------------------------
  // Stats panel

  datatype StatsView = StatsView(show: bool, stats: Option<TodoStats>)

  /** `toggleStats`: the panel flag flips on every call; a stats request is
      issued only when the panel goes from hidden to shown (second
      component). A successful request replaces the snapshot; a failed one
      is only logged and the previous snapshot stays. */
  function ToggleStats(v: StatsView, outcome: Remote<TodoStats>): (r: (StatsView, bool))
    ensures r.0.show == !v.show
    ensures r.1 <==> !v.show
    ensures r.1 && outcome.Success? ==> r.0.stats == Some(outcome.value)
    ensures !(r.1 && outcome.Success?) ==> r.0.stats == v.stats
  {
    if !v.show then
      match outcome
      case Success(snapshot) => (StatsView(true, Some(snapshot)), true)
      case Failure => (StatsView(true, v.stats), true)
    else (StatsView(false, v.stats), false)
  }

  /** The three stats cards render only while shown and once a snapshot has
      arrived. */
  function StatsCardsShown(v: StatsView): (r: bool)
    ensures r ==> v.show && v.stats.Some?
    ensures v.show && v.stats.Some? ==> r
  {
    v.show && v.stats.Some?
  }

  /** Opening the panel shows the cards once the request succeeds; a failed
      request shows them only if an earlier snapshot is still held, so a
      first opening that fails shows no cards. Closing always hides them. */
  lemma StatsCardsAfterToggle(v: StatsView, outcome: Remote<TodoStats>)
    ensures !v.show && outcome.Success? ==> StatsCardsShown(ToggleStats(v, outcome).0)
    ensures !v.show && outcome.Failure? ==> (StatsCardsShown(ToggleStats(v, outcome).0) <==> v.stats.Some?)
    ensures v.show ==> !StatsCardsShown(ToggleStats(v, outcome).0)
  {
  }

  /** Two toggles restore the panel flag and issue exactly one request. */
  lemma ToggleTwice(v: StatsView, first: Remote<TodoStats>, second: Remote<TodoStats>)
    ensures ToggleStats(ToggleStats(v, first).0, second).0.show == v.show
    ensures ToggleStats(v, first).1 != ToggleStats(ToggleStats(v, first).0, second).1
  {
  }

  // ---------------------------------------------------------------------------
  // List header and empty state

  /** The unit after the task count. */
  function CountLabel(n: nat): (r: string)
    ensures r == "task" <==> n == 1
    ensures r == "tasks" <==> n != 1
  {
    if n == 1 then "task" else "tasks"
  }

  /** What the empty-list panel shows: the "try adjusting your filters" hint
      (otherwise the "get started" text), and the "Add Your First Task"
      button. */
  datatype EmptyView = EmptyView(adjustHint: bool, addFirstButton: bool)

  /** The empty-list panel appears once loading is over and the list is
      empty. The hint and the button are two separate conditions in the
      markup; they are complements, each decided by the active filters. */
  function EmptyState(s: TodosState, f: FilterInputs): (r: Option<EmptyView>)
    ensures r.Some? <==> !s.loading && |s.todos| == 0
    ensures r.Some? ==> (r.value.adjustHint <==> HasActiveFilters(f))
    ensures r.Some? ==> (r.value.addFirstButton <==> !HasActiveFilters(f))
  {
    if !s.loading && |s.todos| == 0 then
      Some(EmptyView(
        Truthy(f.search) || Truthy(f.priority) || Truthy(f.category) || f.completed != "all",
        !Truthy(f.search) && !Truthy(f.priority) && !Truthy(f.category) && f.completed == "all"))
    else None
  }

  // ---------------------------------------------------------------------------
  // The whole view

  datatype AppState = AppState(tasks: TodosState, filters: Debouncer, showForm: bool, statsView: StatsView)

  /** The first render: the hook's state before its mount fetch settles,
      the debounce effect's first timer pending, form and stats panel
      hidden and no stats snapshot. */
  function MountApp(now: int): (r: AppState)
    ensures r.tasks == Initial
    ensures r.filters.inputs == ClearedInputs && !HasActiveFilters(r.filters.inputs)
    ensures r.filters.now == now && r.filters.deadline == Some(now + DebounceDelay)
    ensures !r.showForm && !r.statsView.show && r.statsView.stats.None?
  {
    AppState(Initial, MountDebouncer(now), false, StatsView(false, None))
  }

  /** A filter edit reaches only the debouncer; the list waits for the timer.
      An edit that changes the inputs restarts the timer for a full delay;
      one that leaves them equal changes nothing. */
  function EditFilters(a: AppState, e: FilterEdit): (r: AppState)
    ensures r.tasks == a.tasks && r.showForm == a.showForm && r.statsView == a.statsView
    ensures r.filters.inputs == ApplyEdit(a.filters.inputs, e) && r.filters.now == a.filters.now
    ensures r.filters.inputs != a.filters.inputs ==> r.filters.deadline == Some(a.filters.now + DebounceDelay)
    ensures r.filters.inputs == a.filters.inputs ==> r == a
  {
    a.(filters := Edit(a.filters, e))
  }

  /** Time passes; if the timer fires, `filterTodos` runs with the built
      criteria (second component) and `answer` is the service's reply to
      that request. A timer fires once: firing consumes it. */
  function Wait(a: AppState, dt: nat, answer: Remote<seq<Todo>>): (r: (AppState, Option<Criteria>))
    ensures r.1.Some? <==> a.filters.deadline.Some? && a.filters.deadline.value <= a.filters.now + dt
    ensures r.1.Some? ==>
      && r.1.value == BuildCriteria(a.filters.inputs)
      && r.0.tasks == Fetch(a.tasks, answer)
      && r.0.filters.deadline == None
    ensures r.1.None? ==> r.0.tasks == a.tasks && r.0.filters.deadline == a.filters.deadline
    ensures r.0.filters.inputs == a.filters.inputs && r.0.filters.now == a.filters.now + dt
    ensures r.0.showForm == a.showForm && r.0.statsView == a.statsView
  {
    var (d, fired) := Elapse(a.filters, dt);
    (a.(filters := d, tasks := if fired.Some? then Fetch(a.tasks, answer) else a.tasks), fired)
  }

  /** With no filter edit, the list is loaded twice after mount: once by the
      hook's own fetch (answered by `first`), and once when the debounce
      timer fires a full delay later with no criteria (answered by
      `second`); just before the delay, nothing fires. Waiting again after
      that issues no further load. */
  lemma AppMountLoadsTwice(now: int, first: Remote<seq<Todo>>, second: Remote<seq<Todo>>, more: nat)
    ensures var a := MountApp(now).(tasks := Fetch(Initial, first));
      && Wait(a, DebounceDelay - 1, second).1 == None
      && Wait(a, DebounceDelay - 1, second).0.tasks == Fetch(Initial, first)
      && Wait(a, DebounceDelay, second).1 == Some(NoCriteria)
      && Wait(a, DebounceDelay, second).0.tasks == Fetch(Fetch(Initial, first), second)
      && Wait(Wait(a, DebounceDelay, second).0, more, second).1 == None
  {
  }

  /** Toggling the stats panel touches neither the tasks nor the filters nor
      the form flag. The second component says whether a stats request was
      sent: only when the panel opens. The snapshot changes only when that
      request succeeds. */
  function ToggleStatsPanel(a: AppState, outcome: Remote<TodoStats>): (r: (AppState, bool))
    ensures r.0.tasks == a.tasks && r.0.filters == a.filters && r.0.showForm == a.showForm
    ensures r.0.statsView.show == !a.statsView.show
    ensures r.1 <==> !a.statsView.show
    ensures r.1 && outcome.Success? ==> r.0.statsView.stats == Some(outcome.value)
    ensures !(r.1 && outcome.Success?) ==> r.0.statsView.stats == a.statsView.stats
  {
    var (v, requested) := ToggleStats(a.statsView, outcome);
    (a.(statsView := v), requested)
  }

  /** The "Add Task" button flips the form; "Add Your First Task" opens it.
      Nothing else changes. */
  function ToggleForm(a: AppState): (r: AppState)
    ensures r.showForm == !a.showForm
    ensures r.tasks == a.tasks && r.filters == a.filters && r.statsView == a.statsView
  {
    a.(showForm := !a.showForm)
  }

  function OpenForm(a: AppState): (r: AppState)
    ensures r.showForm
    ensures r.tasks == a.tasks && r.filters == a.filters && r.statsView == a.statsView
  {
    a.(showForm := true)
  }

  /** A request the view sends to the task service through the hook. */
  datatype Request =
    | CreateRequest(create: CreateTodoDto)
    | UpdateRequest(id: string, update: UpdateTodoDto)
    | DeleteRequest(id: string)

  /** The form submits through `createTodo`, and its `onCancel` closes it.
      `answer` is the service's reply to the create request; the third
      component is the request sent, if any. */
  function SubmitNewTask(a: AppState, form: TodoForm.FormState, answer: Remote<Todo>)
    : (r: (AppState, TodoForm.FormState, Option<Request>))
    ensures AllWhitespace(form.data.title) ==> r == (a, form, None)
    ensures !AllWhitespace(form.data.title) ==> r.2 == Some(CreateRequest(TodoForm.Draft(form.data)))
    ensures r.0.tasks.loading == a.tasks.loading
    ensures r.0.filters == a.filters && r.0.statsView == a.statsView
    ensures !AllWhitespace(form.data.title) && answer.Success? ==>
      && r.0.tasks == TodosState([answer.value] + a.tasks.todos, a.tasks.loading, None)
      && !r.0.showForm
      && r.1 == TodoForm.InitialForm
    ensures !AllWhitespace(form.data.title) && answer.Failure? ==>
      && r.0.tasks == TodosState(a.tasks.todos, a.tasks.loading, Some(CreateError))
      && r.0.showForm == a.showForm
      && r.1 == TodoForm.FormState(form.data, false)
  {
    var (pending, draft) := TodoForm.BeginSubmit(form);
    if draft.None? then (a, form, None)
    else
      var settled := CreateTodo(a.tasks, answer);
      var (after, cancelled) := TodoForm.EndSubmit(pending, settled.rejected);
      (a.(tasks := settled.state, showForm := if cancelled then false else a.showForm), after,
       Some(CreateRequest(draft.value)))
  }

  /** A row's save goes through `updateTodo` for the row's task; `answer` is
      the service's reply. The third component is the request sent. */
  function SaveRow(a: AppState, row: TodoItem.ItemState, todo: Todo, answer: Remote<Todo>)
    : (r: (AppState, TodoItem.ItemState, Request))
    ensures r.2 == UpdateRequest(todo.id, TodoItem.SavePayload(row.buffer))
    ensures r.0.tasks.loading == a.tasks.loading
    ensures r.0.filters == a.filters && r.0.showForm == a.showForm && r.0.statsView == a.statsView
    ensures answer.Success? ==>
      && r.0.tasks.todos == ReplaceById(a.tasks.todos, todo.id, answer.value)
      && r.0.tasks.error == None
      && r.1 == row.(editing := false)
    ensures answer.Failure? ==>
      && r.0.tasks.todos == a.tasks.todos
      && r.0.tasks.error == Some(UpdateError)
      && r.1 == row
  {
    var request := UpdateRequest(todo.id, TodoItem.SavePayload(row.buffer));
    var settled := UpdateTodo(a.tasks, request.id, answer);
    (a.(tasks := settled.state), TodoItem.FinishSave(row, settled.rejected), request)
  }

  /** The toggle and delete buttons go through `updateTodo` / `deleteTodo`
      without catching: the last component says the rejection escapes. The
      middle one is the request sent. */
  function ToggleRow(a: AppState, todo: Todo, answer: Remote<Todo>): (r: (AppState, Request, bool))
    ensures r.1 == UpdateRequest(todo.id, TodoItem.TogglePayload(todo))
    ensures r.2 <==> answer.Failure?
    ensures r.0.tasks.loading == a.tasks.loading
    ensures r.0.filters == a.filters && r.0.showForm == a.showForm && r.0.statsView == a.statsView
    ensures answer.Success? ==>
      r.0.tasks.todos == ReplaceById(a.tasks.todos, todo.id, answer.value) && r.0.tasks.error == None
    ensures answer.Failure? ==>
      r.0.tasks.todos == a.tasks.todos && r.0.tasks.error == Some(UpdateError)
  {
    var request := UpdateRequest(todo.id, TodoItem.TogglePayload(todo));
    var settled := UpdateTodo(a.tasks, request.id, answer);
    (a.(tasks := settled.state), request, settled.rejected)
  }

  function DeleteRow(a: AppState, todo: Todo, answer: Remote<()>): (r: (AppState, Request, bool))
    ensures r.1 == DeleteRequest(todo.id)
    ensures r.2 <==> answer.Failure?
    ensures r.0.tasks.loading == a.tasks.loading
    ensures r.0.filters == a.filters && r.0.showForm == a.showForm && r.0.statsView == a.statsView
    ensures answer.Success? ==>
      r.0.tasks.todos == RemoveById(a.tasks.todos, todo.id) && r.0.tasks.error == None
    ensures answer.Failure? ==>
      r.0.tasks.todos == a.tasks.todos && r.0.tasks.error == Some(DeleteError)
  {
    var request := DeleteRequest(todo.id);
    var settled := DeleteTodo(a.tasks, request.id, answer);
    (a.(tasks := settled.state), request, settled.rejected)
  }

  // ---------------------------------------------------------------------------
  // What a literal partial update does with the payloads

  /** A service that applies an update payload field by field: present
      fields overwrite, absent ones keep the stored value; `stamp` is the new
      modification time. */
  function Patched(t: Todo, p: UpdateTodoDto, stamp: string): (r: Todo)
    ensures r.id == t.id && r.createdAt == t.createdAt && r.updatedAt == stamp
    ensures p.title.Some? ==> r.title == p.title.value
    ensures p.title.None? ==> r.title == t.title
    ensures p.description.Some? ==> r.description == p.description
    ensures p.description.None? ==> r.description == t.description
    ensures p.completed.Some? ==> r.completed == p.completed.value
    ensures p.completed.None? ==> r.completed == t.completed
    ensures p.priority.Some? ==> r.priority == p.priority.value
    ensures p.priority.None? ==> r.priority == t.priority
    ensures p.category.Some? ==> r.category == p.category.value
    ensures p.category.None? ==> r.category == t.category
    ensures p.dueDate.Some? ==> r.dueDate == p.dueDate
    ensures p.dueDate.None? ==> r.dueDate == t.dueDate
  {
    Todo(t.id, p.title.GetOr(t.title),
         if p.description.Some? then p.description else t.description,
         p.completed.GetOr(t.completed), p.priority.GetOr(t.priority), p.category.GetOr(t.category),
         if p.dueDate.Some? then p.dueDate else t.dueDate,
         t.createdAt, stamp)
  }

  /** Against such a service a toggle flips the row's completion flag and
      nothing else but the modification time, and keeps identifiers unique. */
  lemma ToggleFlipsOnlyCompleted(a: AppState, todo: Todo, stamp: string)
    requires UniqueIds(a.tasks.todos)
    ensures var answer := Patched(todo, TodoItem.TogglePayload(todo), stamp);
      && answer == todo.(completed := !todo.completed, updatedAt := stamp)
      && ToggleRow(a, todo, Success(answer)).1.update == TodoItem.TogglePayload(todo)
      && ToggleRow(a, todo, Success(answer)).0.tasks.todos == ReplaceById(a.tasks.todos, todo.id, answer)
      && UniqueIds(ToggleRow(a, todo, Success(answer)).0.tasks.todos)
  {
    var answer := Patched(todo, TodoItem.TogglePayload(todo), stamp);
    ReplaceKeepsIds(a.tasks.todos, todo.id, answer);
  }

  /** Against such a service, emptying the description in the edit form does
      not remove it: the empty string is sent as an absent field, and an
      absent field keeps the stored value. The same holds for the due date. */
  lemma ClearedFieldSurvivesSave(todo: Todo, b: TodoItem.EditBuffer, stamp: string)
    ensures b.description == "" ==> Patched(todo, TodoItem.SavePayload(b), stamp).description == todo.description
    ensures b.dueDate == "" ==> Patched(todo, TodoItem.SavePayload(b), stamp).dueDate == todo.dueDate
  {
  }
}

=== FILE: filter_bar.dfy ===
/** The filter bar (src/components/FilterBar.tsx): the four filter inputs it
    edits, the values its two selectors can produce, and when it shows the
    clear button. */
module FilterBar {
  import opened JsString
  import opened Todos

  /** The four filter strings the application holds: free-text search, the
      priority selector, the category text box and the completion selector. */
  datatype FilterInputs = FilterInputs(search: string, priority: string, category: string, completed: string)

  /** The completion selector's "no constraint" value. */
  const AllSentinel := "all"

  /** The values the completion selector offers: All Tasks, Pending, Completed. */
  const CompletedOptions: seq<string> := ["all", "false", "true"]

  /** The values the priority selector offers: All Priorities, High, Medium, Low. */
  const PriorityOptions: seq<string> := ["", "high", "medium", "low"]

  /** Any filter narrows the list: a non-empty search, priority or category,
      or a completion choice other than "all". */
  function HasActiveFilters(f: FilterInputs): (r: bool)
    ensures r <==> f != FilterInputs("", "", "", "all")
  {
    Truthy(f.search) || Truthy(f.priority) || Truthy(f.category) || f.completed != AllSentinel
  }

  /** The clear button is rendered exactly when a filter is active. */
  function ClearButtonShown(f: FilterInputs): (shown: bool)
    ensures shown <==> f.search != "" || f.priority != "" || f.category != "" || f.completed != "all"
    ensures shown <==> f != FilterInputs("", "", "", "all")
  {
    HasActiveFilters(f)
  }

  /** The inputs can have been produced through the two selectors. */
  predicate FromSelectors(f: FilterInputs) {
    f.completed in CompletedOptions && f.priority in PriorityOptions
  }

  /** A priority picked in the selector is either "no constraint" or one of
      the three enumerated priorities, never an arbitrary string. */
  lemma PrioritySelectionIsValid(f: FilterInputs)
    requires FromSelectors(f)
    ensures f.priority == "" || ParsePriority(f.priority).Some?
    ensures f.completed == "all" || f.completed == "false" || f.completed == "true"
  {
  }
}

=== FILE: js_string.dfy ===
/** The two pieces of JavaScript string semantics the components depend on:
    truthiness (`if (search)`, `x || undefined`) and `String.prototype.trim`. */
module JsString {

  /** A string is truthy in JavaScript exactly when it is non-empty. */
  predicate Truthy(s: string) {
    |s| > 0
  }

  /** The code points `trim` strips: the WhiteSpace and LineTerminator
      productions of ECMAScript (sections 12.2 and 12.3 of ECMA-262),
      including every space separator of Unicode category Zs. */
  predicate IsWhitespace(c: char) {
    || c == '\t' || c == '\n' || c == '\U{000B}' || c == '\U{000C}' || c == '\r'
    || c == ' ' || c == '\U{00A0}' || c == '\U{1680}'
    || ('\U{2000}' <= c <= '\U{200A}')
    || c == '\U{2028}' || c == '\U{2029}' || c == '\U{202F}' || c == '\U{205F}'
    || c == '\U{3000}' || c == '\U{FEFF}'
  }

  predicate AllWhitespace(s: string) {
    forall i :: 0 <= i < |s| ==> IsWhitespace(s[i])
  }

  /** Drops leading whitespace: the result is a suffix of `s`, everything
      dropped is whitespace, and the result does not start with whitespace. */
  function TrimStart(s: string): (r: string)
    ensures |r| <= |s| && r == s[|s| - |r|..]
    ensures AllWhitespace(s[..|s| - |r|])
    ensures r == [] || !IsWhitespace(r[0])
  {
    if |s| > 0 && IsWhitespace(s[0]) then
      var r := TrimStart(s[1..]);
      assert s[..|s| - |r|] == [s[0]] + s[1..][..|s[1..]| - |r|];
      r
    else
      s
  }

  /** Drops trailing whitespace: the result is a prefix of `s`, everything
      dropped is whitespace, and the result does not end with whitespace. */
  function TrimEnd(s: string): (r: string)
    ensures |r| <= |s| && r == s[..|r|]
    ensures AllWhitespace(s[|r|..])
    ensures r == [] || !IsWhitespace(r[|r| - 1])
  {
    if |s| > 0 && IsWhitespace(s[|s| - 1]) then
      var r := TrimEnd(s[..|s| - 1]);
      assert s[|r|..] == s[..|s| - 1][|r|..] + [s[|s| - 1]];
      r
    else
      s
  }

  /** `s.trim()`: neither starts nor ends with whitespace, and is empty
      exactly when `s` is all whitespace. */
  function Trim(s: string): (r: string)
    ensures r == [] <==> AllWhitespace(s)
    ensures r != [] ==> !IsWhitespace(r[0]) && !IsWhitespace(r[|r| - 1])
  {
    var t := TrimStart(s);
    var r := TrimEnd(t);
    if r == [] then
      assert AllWhitespace(t);
      assert t == [];
      assert s[..|s| - |t|] == s;
      r
    else
      assert !IsWhitespace(t[0]) by {
        assert t[0] == r[0];
      }
      assert !AllWhitespace(s) by {
        assert s[|s| - |t|] == t[0];
      }
      r
  }

  /** `!s.trim()`: the string holds no character other than whitespace. */
  function IsBlank(s: string): (r: bool)
    ensures r <==> AllWhitespace(s)
  {
    Trim(s) == []
  }

  /** What `trim` keeps is a contiguous slice of `s` with only whitespace
      before and after it. */
  lemma TrimIsSlice(s: string)
    ensures exists i, j :: 0 <= i <= j <= |s| && Trim(s) == s[i..j] && AllWhitespace(s[..i]) && AllWhitespace(s[j..])
  {
    var t := TrimStart(s);
    var i := |s| - |t|;
    var j := i + |Trim(s)|;
    assert t == s[i..];
    assert Trim(s) == s[i..j];
    assert s[j..] == t[|Trim(s)|..];
  }
}

=== FILE: todo_form.dfy ===
/** The new-task form (src/components/TodoForm.tsx): the form fields, the
    blank-title guard, the draft it submits and what it does once the
    submission settles. */
module TodoForm {
  import opened JsString
  import opened Todos

  /** What the form's inputs hold. Every field is a string the user edits;
      the priority comes from a selector over the three enumerated values. */
  datatype FormData = FormData(title: string, description: string, priority: Priority, category: string, dueDate: string)

  datatype FormState = FormState(data: FormData, loading: bool)

  /** The fields on mount and after every successful submission. */
  const DefaultData := FormData("", "", Medium, "general", "")

  const InitialForm := FormState(DefaultData, false)

  /** The create request built from the fields: the title exactly as typed
      (the trim is only a guard), priority and category carried over, and an
      empty description or due date left out. */
  function Draft(d: FormData): (r: CreateTodoDto)
    ensures r.title == d.title
    ensures r.priority == Some(d.priority) && r.category == Some(d.category)
    ensures r.description.None? <==> d.description == ""
    ensures r.dueDate.None? <==> d.dueDate == ""
    ensures r.description == OrAbsent(d.description) && r.dueDate == OrAbsent(d.dueDate)
  {
    CreateTodoDto(d.title, OrAbsent(d.description), Some(d.priority), Some(d.category), OrAbsent(d.dueDate))
  }

  /** Reads form fields back from a draft, filling absent fields with the
      values the form shows for them. */
  function FieldsOf(dto: CreateTodoDto): FormData {
    FormData(dto.title, dto.description.GetOr(""), dto.priority.GetOr(Medium),
             dto.category.GetOr("general"), dto.dueDate.GetOr(""))
  }

  /** The draft loses nothing: the fields can be read back from it. */
  lemma DraftRoundTrip(d: FormData)
    ensures FieldsOf(Draft(d)) == d
  {
  }

  /** The submit button is disabled while a submission is in flight or while
      the title is blank. */
  function SubmitDisabled(f: FormState): (r: bool)
    ensures r <==> f.loading || AllWhitespace(f.data.title)
  {
    f.loading || IsBlank(f.data.title)
  }

  /** The first half of `handleSubmit`: with a blank title nothing happens
      and nothing is submitted; otherwise the form enters its loading state
      and hands the draft to `onSubmit`. */
  function BeginSubmit(f: FormState): (r: (FormState, Option<CreateTodoDto>))
    ensures r.1.None? <==> AllWhitespace(f.data.title)
    ensures r.1.None? ==> r.0 == f
    ensures r.1.Some? ==> r.0 == FormState(f.data, true) && r.1.value == Draft(f.data)
  {
    if IsBlank(f.data.title) then (f, None)
    else (f.(loading := true), Some(Draft(f.data)))
  }

  /** The second half of `handleSubmit`, once `onSubmit` settles: on success
      the fields reset and `onCancel` is called; on failure the fields stay
      as typed, `onCancel` is not called and the error goes no further. In
      both cases the form leaves its loading state. The second component is
      whether `onCancel` was called. */
  function EndSubmit(f: FormState, rejected: bool): (r: (FormState, bool))
    ensures !r.0.loading
    ensures r.1 <==> !rejected
    ensures !rejected ==> r.0 == InitialForm
    ensures rejected ==> r.0.data == f.data
  {
    if rejected then (f.(loading := false), false)
    else (FormState(DefaultData, false), true)
  }

  /** A submission that succeeds leaves the form exactly as it was mounted. */
  lemma SuccessRestoresMountedForm(f: FormState)
    requires !AllWhitespace(f.data.title)
    ensures BeginSubmit(f).1.Some?
    ensures EndSubmit(BeginSubmit(f).0, false).0 == InitialForm
  {
  }

  /** A submission that fails leaves the fields as they were before it, so
      the user can retry, and the button is enabled again. */
  lemma FailureKeepsFields(f: FormState)
    requires !AllWhitespace(f.data.title)
    ensures EndSubmit(BeginSubmit(f).0, true).0 == FormState(f.data, false)
    ensures !SubmitDisabled(EndSubmit(BeginSubmit(f).0, true).0)
  {
  }

  /** A blank title both disables the button and stops `handleSubmit`. */
  lemma BlankTitleGuard(f: FormState)
    requires AllWhitespace(f.data.title)
    ensures SubmitDisabled(f)
    ensures BeginSubmit(f) == (f, None)
  {
  }
}

=== FILE: todo_item.dfy ===
/** One row of the task list (src/components/TodoItem.tsx): the toggle and
    save payloads it sends, its edit buffer and edit-mode transitions, and
    the "due today" / "overdue" flags of its due-date badge. */
module TodoItem {
  import opened JsString
  import opened Todos

  /** The fields the edit inputs hold. */
  datatype EditBuffer = EditBuffer(title: string, description: string, priority: Priority, category: string, dueDate: string)

  datatype ItemState = ItemState(editing: bool, buffer: EditBuffer)

  /** The buffer derived from a task: an absent description shows as '', and
      a due date is shown through `toInputDate`, which stands for
      `format(new Date(d), 'yyyy-MM-dd')`; an absent or empty one shows as ''. */
  function BufferOf(todo: Todo, toInputDate: string -> string): (b: EditBuffer)
    ensures b.title == todo.title && b.priority == todo.priority && b.category == todo.category
    ensures todo.description.Some? ==> b.description == todo.description.value
    ensures todo.description.None? ==> b.description == ""
    ensures todo.dueDate.None? || todo.dueDate.value == "" ==> b.dueDate == ""
    ensures todo.dueDate.Some? && todo.dueDate.value != "" ==> b.dueDate == toInputDate(todo.dueDate.value)
  {
    var due := if todo.dueDate.Some? && Truthy(todo.dueDate.value) then toInputDate(todo.dueDate.value) else "";
    EditBuffer(todo.title, todo.description.GetOr(""), todo.priority, todo.category, due)
  }

  /** A freshly mounted row: not editing, buffer derived from the task. */
  function Mount(todo: Todo, toInputDate: string -> string): (r: ItemState)
    ensures !r.editing
    ensures r.buffer.title == todo.title && r.buffer.priority == todo.priority && r.buffer.category == todo.category
    ensures r.buffer.description == todo.description.GetOr("")
  {
    ItemState(false, BufferOf(todo, toInputDate))
  }

  /** The edit button only switches the mode: the buffer keeps whatever it
      held, it is not re-derived from the task. */
  function StartEdit(st: ItemState): (r: ItemState)
    ensures r.editing && r.buffer == st.buffer
  {
    st.(editing := true)
  }

  /** `{ completed: !todo.completed }`: the toggle payload carries the
      flipped flag and no other field. */
  function TogglePayload(todo: Todo): (r: UpdateTodoDto)
    ensures r.completed == Some(!todo.completed)
    ensures r.title.None? && r.description.None? && r.priority.None? && r.category.None? && r.dueDate.None?
  {
    UpdateTodoDto(None, None, Some(!todo.completed), None, None, None)
  }

  /** The save payload: title, priority and category from the buffer, an
      empty description or due date left out, and never a completion flag. */
  function SavePayload(b: EditBuffer): (r: UpdateTodoDto)
    ensures r.title == Some(b.title) && r.priority == Some(b.priority) && r.category == Some(b.category)
    ensures r.completed.None?
    ensures r.description.None? <==> b.description == ""
    ensures r.dueDate.None? <==> b.dueDate == ""
    ensures r.description == OrAbsent(b.description) && r.dueDate == OrAbsent(b.dueDate)
  {
    UpdateTodoDto(Some(b.title), OrAbsent(b.description), None, Some(b.priority), Some(b.category), OrAbsent(b.dueDate))
  }

  /** `handleSaveEdit` once `onUpdate` settles: success leaves edit mode;
      failure is swallowed and the row stays as it was, still editing. */
  function FinishSave(st: ItemState, rejected: bool): (r: ItemState)
    ensures r.buffer == st.buffer
    ensures rejected ==> r == st
    ensures !rejected ==> !r.editing
  {
    if rejected then st else st.(editing := false)
  }

  /** `handleCancelEdit`: re-derive the buffer from the task and leave edit
      mode. */
  function CancelEdit(st: ItemState, todo: Todo, toInputDate: string -> string): (r: ItemState)
    ensures !r.editing
  {
    ItemState(false, BufferOf(todo, toInputDate))
  }

  /** Whatever was typed, cancelling puts the row back in the state a fresh
      mount of the same task would have. */
  lemma CancelRestoresMount(st: ItemState, todo: Todo, toInputDate: string -> string)
    ensures CancelEdit(st, todo, toInputDate) == Mount(todo, toInputDate)
  {
  }

  /** Saving a buffer nobody edited sends the task's own title, priority and
      category, its description when it has a non-empty one, and no
      completion flag. */
  lemma UntouchedSaveEchoesTask(todo: Todo, toInputDate: string -> string)
    ensures SavePayload(BufferOf(todo, toInputDate)).title == Some(todo.title)
    ensures SavePayload(BufferOf(todo, toInputDate)).priority == Some(todo.priority)
    ensures SavePayload(BufferOf(todo, toInputDate)).category == Some(todo.category)
    ensures SavePayload(BufferOf(todo, toInputDate)).completed.None?
    ensures SavePayload(BufferOf(todo, toInputDate)).description
         == (if todo.description.Some? && todo.description.value != "" then todo.description else None)
  {
  }

  // ---------------------------------------------------------------------------
  // Due-date flags

  const MsPerDay := 86_400_000

  /** The calendar day of an instant, instants being milliseconds on the
      local clock. */
  function Day(t: int): int {
    t / MsPerDay
  }

  lemma DayMonotone(a: int, b: int)
    requires a <= b
    ensures Day(a) <= Day(b)
  {
  }

  datatype DueFlags = DueFlags(dueToday: bool, overdue: bool)

  /** `isDueToday` and `isOverdue`. `instantOf` stands for `new Date(d)`,
      giving None for an invalid date; `now` is the clock `isToday` and
      `isPast` read. A task is due today when its due date falls on today's
      calendar day and overdue when it falls on an earlier one; neither holds
      without a (valid, non-empty) due date, and never both. */
  function Flags(todo: Todo, instantOf: string -> Option<int>, now: int): (r: DueFlags)
    ensures !(r.dueToday && r.overdue)
    ensures todo.dueDate.None? || todo.dueDate.value == "" ==> r == DueFlags(false, false)
    ensures todo.dueDate.Some? && todo.dueDate.value != "" && instantOf(todo.dueDate.value).Some? ==>
      var day := Day(instantOf(todo.dueDate.value).value);
      && (r.dueToday <==> day == Day(now))
      && (r.overdue <==> day < Day(now))
  {
    if todo.dueDate.Some? && Truthy(todo.dueDate.value) then
      match instantOf(todo.dueDate.value)
      case None => DueFlags(false, false)
      case Some(t) =>
        var isToday := Day(t) == Day(now);
        var isPast := t < now;
        DayMonotone(if isPast then t else now, if isPast then now else t);
        DueFlags(isToday, isPast && !isToday)
    else
      DueFlags(false, false)
  }
}

=== FILE: todos.dfy ===
/** The record types the client exchanges with the task service
    (src/types/Todos.ts), and the two outcome shapes every other module uses. */
module Todos {
  import opened JsString

  /** A TypeScript optional field: `field?: T`. */
  datatype Option<+T> = None | Some(value: T) {
    function GetOr(default: T): T {
      match this
      case Some(v) => v
      case None => default
    }
  }

  /** `s || undefined`: the empty string becomes an absent field. */
  function OrAbsent(s: string): (r: Option<string>)
    ensures r.None? <==> s == ""
    ensures r.Some? ==> r.value == s
  {
    if Truthy(s) then Some(s) else None
  }

  /** The settled outcome of one call to the remote store. The client never
      looks at why a call failed, so a failure carries nothing. */
  datatype Remote<+T> = Success(value: T) | Failure

  /** `'low' | 'medium' | 'high'`. */
  datatype Priority = Low | Medium | High

  function PriorityName(p: Priority): string {
    match p
    case Low => "low"
    case Medium => "medium"
    case High => "high"
  }

  /** Reads a priority string back; only the three enumerated names parse. */
  function ParsePriority(s: string): (r: Option<Priority>)
    ensures r.Some? <==> s == "low" || s == "medium" || s == "high"
    ensures r.Some? ==> PriorityName(r.value) == s
  {
    if s == "low" then Some(Low)
    else if s == "medium" then Some(Medium)
    else if s == "high" then Some(High)
    else None
  }

  /** Every priority has a distinct name that parses back to it. */
  lemma PriorityNameRoundTrip(p: Priority)
    ensures ParsePriority(PriorityName(p)) == Some(p)
    ensures forall q: Priority :: PriorityName(q) == PriorityName(p) ==> q == p
  {
  }

  /** A stored task. `id` is the service's `_id`; the service assigns it and
      both timestamps. Description and due date are optional. */
  datatype Todo = Todo(
    id: string,
    title: string,
    description: Option<string>,
    completed: bool,
    priority: Priority,
    category: string,
    dueDate: Option<string>,
    createdAt: string,
    updatedAt: string)

  /** A create request: only the title is required, and it has no place for
      an identifier, a completion flag or timestamps. */
  datatype CreateTodoDto = CreateTodoDto(
    title: string,
    description: Option<string>,
    priority: Option<Priority>,
    category: Option<string>,
    dueDate: Option<string>)

  /** A partial update: every field optional, and no identifier or timestamp
      field, so an update request cannot name a new identity. */
  datatype UpdateTodoDto = UpdateTodoDto(
    title: Option<string>,
    description: Option<string>,
    completed: Option<bool>,
    priority: Option<Priority>,
    category: Option<string>,
    dueDate: Option<string>)

  /** One `{ _id, count }` entry of a stats breakdown. */
  datatype Bucket = Bucket(key: string, count: int)

  datatype TodoStats = TodoStats(
    total: int,
    completed: int,
    pending: int,
    byPriority: seq<Bucket>,
    byCategory: seq<Bucket>)

  function Ids(todos: seq<Todo>): (r: seq<string>)
    ensures |r| == |todos|
    ensures forall i :: 0 <= i < |todos| ==> r[i] == todos[i].id
  {
    seq(|todos|, i requires 0 <= i < |todos| => todos[i].id)
  }

  /** No two tasks of the collection share an identifier. */
  predicate UniqueIds(todos: seq<Todo>) {
    forall i, j :: 0 <= i < j < |todos| ==> todos[i].id != todos[j].id
  }

  predicate HasId(todos: seq<Todo>, id: string) {
    exists i :: 0 <= i < |todos| && todos[i].id == id
  }
}

=== FILE: use_todos.dfy ===
/** The task-collection hook (src/hooks/useTodos.ts): the observable state is
    the triple (list, loading flag, error message), and every operation is a
    transition of that triple given the settled outcome of its remote call. */
module UseTodos {
  import opened Todos

  const FetchError := "Failed to fetch todos"
  const CreateError := "Failed to create todo"
  const UpdateError := "Failed to update todo"
  const DeleteError := "Failed to delete todo"

  /** The optional query parameters of a list request; an absent field puts
      no constraint on that field. */
  datatype Criteria = Criteria(
    completed: Option<bool>,
    priority: Option<string>,
    category: Option<string>,
    search: Option<string>)

  const NoCriteria := Criteria(None, None, None, None)

  datatype TodosState = TodosState(todos: seq<Todo>, loading: bool, error: Option<string>)

  /** Before the first fetch settles: no tasks, the spinner on, no error. */
  const Initial := TodosState([], true, None)

  /** The state after a mutation, and whether the mutation re-raised its
      failure to the caller. */
  datatype Settled = Settled(state: TodosState, rejected: bool)

  // ---------------------------------------------------------------------------
  // List shaping

  /** `[newTodo, ...prev]`. */
  function Prepend(todos: seq<Todo>, t: Todo): (r: seq<Todo>)
    ensures |r| == |todos| + 1 && r[0] == t && r[1..] == todos
  {
    [t] + todos
  }

  /** `prev.map(t => t._id === id ? updated : t)`. */
  function ReplaceById(todos: seq<Todo>, id: string, updated: Todo): (r: seq<Todo>)
    ensures |r| == |todos|
    ensures forall i :: 0 <= i < |todos| ==> r[i] == (if todos[i].id == id then updated else todos[i])
  {
    if todos == [] then []
    else [if todos[0].id == id then updated else todos[0]] + ReplaceById(todos[1..], id, updated)
  }

  /** `a` is obtained from `b` by dropping some elements, keeping the order
      of the rest. */
  predicate IsSubsequence<T(==)>(a: seq<T>, b: seq<T>)
    decreases |b|
  {
    if a == [] then true
    else if b == [] then false
    else (a[0] == b[0] && IsSubsequence(a[1..], b[1..])) || IsSubsequence(a, b[1..])
  }

  /** `prev.filter(t => t._id !== id)`: every task with another identifier
      survives with its multiplicity and relative order; no task with this
      identifier survives. */
  function RemoveById(todos: seq<Todo>, id: string): (r: seq<Todo>)
    ensures IsSubsequence(r, todos)
    ensures forall t {:trigger multiset(r)[t]} :: multiset(r)[t] == (if t.id == id then 0 else multiset(todos)[t])
  {
    if todos == [] then []
    else
      assert todos == [todos[0]] + todos[1..];
      if todos[0].id == id then RemoveById(todos[1..], id)
      else [todos[0]] + RemoveById(todos[1..], id)
  }

  // ---------------------------------------------------------------------------
  // Transitions

  /** `fetchTodos` before its request settles: loading on, error cleared. */
  function BeginFetch(s: TodosState): (r: TodosState)
    ensures r.todos == s.todos && r.loading && r.error == None
  {
    s.(loading := true, error := None)
  }

  /** `fetchTodos` once its request settles. The failure is recorded, not
      re-raised, so the result is a plain state. */
  function EndFetch(s: TodosState, outcome: Remote<seq<Todo>>): (r: TodosState)
    ensures !r.loading
    ensures outcome.Success? ==> r.todos == outcome.value && r.error == s.error
    ensures outcome.Failure? ==> r.todos == s.todos && r.error == Some(FetchError)
  {
    match outcome
    case Success(list) => s.(todos := list, loading := false)
    case Failure => s.(error := Some(FetchError), loading := false)
  }

  /** A whole `fetchTodos` call; `refetch` and `filterTodos` are this same
      operation, the criteria being the request's and not the state's. */
  function Fetch(s: TodosState, outcome: Remote<seq<Todo>>): (r: TodosState)
    ensures outcome.Success? ==> r == TodosState(outcome.value, false, None)
    ensures outcome.Failure? ==> r == TodosState(s.todos, false, Some(FetchError))
  {
    EndFetch(BeginFetch(s), outcome)
  }

  /** What every mutation does before its request: clear the error, leave
      the list and the loading flag alone. */
  function BeginMutation(s: TodosState): (r: TodosState)
    ensures r.todos == s.todos && r.loading == s.loading && r.error == None
  {
    s.(error := None)
  }

  function CreateTodo(s: TodosState, outcome: Remote<Todo>): (r: Settled)
    ensures r.state.loading == s.loading
    ensures r.rejected <==> outcome.Failure?
    ensures outcome.Success? ==> r.state.todos == [outcome.value] + s.todos && r.state.error == None
    ensures outcome.Failure? ==> r.state.todos == s.todos && r.state.error == Some(CreateError)
  {
    var pending := BeginMutation(s);
    match outcome
    case Success(t) => Settled(pending.(todos := Prepend(pending.todos, t)), false)
    case Failure => Settled(pending.(error := Some(CreateError)), true)
  }

  function UpdateTodo(s: TodosState, id: string, outcome: Remote<Todo>): (r: Settled)
    ensures r.state.loading == s.loading
    ensures r.rejected <==> outcome.Failure?
    ensures outcome.Success? ==> r.state.todos == ReplaceById(s.todos, id, outcome.value) && r.state.error == None
    ensures outcome.Failure? ==> r.state.todos == s.todos && r.state.error == Some(UpdateError)
  {
    var pending := BeginMutation(s);
    match outcome
    case Success(t) => Settled(pending.(todos := ReplaceById(pending.todos, id, t)), false)
    case Failure => Settled(pending.(error := Some(UpdateError)), true)
  }

  function DeleteTodo(s: TodosState, id: string, outcome: Remote<()>): (r: Settled)
    ensures r.state.loading == s.loading
    ensures r.rejected <==> outcome.Failure?
    ensures outcome.Success? ==> r.state.todos == RemoveById(s.todos, id) && r.state.error == None
    ensures outcome.Failure? ==> r.state.todos == s.todos && r.state.error == Some(DeleteError)
  {
    var pending := BeginMutation(s);
    match outcome
    case Success(_) => Settled(pending.(todos := RemoveById(pending.todos, id)), false)
    case Failure => Settled(pending.(error := Some(DeleteError)), true)
  }

  // ---------------------------------------------------------------------------
  // Properties

  /** The mount fetch ends the initial spinner whatever its outcome, and a
      failed one leaves the list empty with the fetch error showing. */
  lemma MountFetchSettles(outcome: Remote<seq<Todo>>)
    ensures Initial.todos == [] && Initial.loading && Initial.error == None
    ensures !Fetch(Initial, outcome).loading
    ensures outcome.Failure? ==> Fetch(Initial, outcome) == TodosState([], false, Some(FetchError))
  {
  }

  /** Two serial fetches answered with the same result leave the same state
      as one: the second overwrites the list wholesale with an equal list. */
  lemma FetchIdempotent(s: TodosState, outcome: Remote<seq<Todo>>)
    ensures Fetch(Fetch(s, outcome), outcome) == Fetch(s, outcome)
  {
  }

  /** A successful update keeps every identifier in place when the returned
      record carries the requested identifier, so uniqueness is kept. */
  lemma ReplaceKeepsIds(todos: seq<Todo>, id: string, updated: Todo)
    requires updated.id == id
    ensures Ids(ReplaceById(todos, id, updated)) == Ids(todos)
    ensures UniqueIds(todos) ==> UniqueIds(ReplaceById(todos, id, updated))
  {
  }

  /** Updating an identifier the list does not hold changes nothing. */
  lemma ReplaceAbsentIsIdentity(todos: seq<Todo>, id: string, updated: Todo)
    requires !HasId(todos, id)
    ensures ReplaceById(todos, id, updated) == todos
  {
  }

  /** With unique identifiers, writing back the record that was replaced
      restores the list: an update touches exactly one position. */
  lemma ReplaceRevert(todos: seq<Todo>, k: nat, updated: Todo)
    requires UniqueIds(todos) && k < |todos| && updated.id == todos[k].id
    ensures ReplaceById(ReplaceById(todos, todos[k].id, updated), todos[k].id, todos[k]) == todos
  {
    var id := todos[k].id;
    var once := ReplaceById(todos, id, updated);
    var twice := ReplaceById(once, id, todos[k]);
    forall i | 0 <= i < |todos|
      ensures twice[i] == todos[i]
    {
      if i < k {
        assert todos[i].id != id;
      } else if k < i {
        assert todos[k].id != todos[i].id;
      }
    }
  }

  /** Deleting an identifier the list does not hold changes nothing. */
  lemma {:induction false} RemoveAbsentIsIdentity(todos: seq<Todo>, id: string)
    requires !HasId(todos, id)
    ensures RemoveById(todos, id) == todos
  {
    if todos != [] {
      assert todos[0].id != id;
      forall i | 0 <= i < |todos[1..]|
        ensures todos[1..][i].id != id
      {
        assert todos[1..][i] == todos[i + 1];
      }
      RemoveAbsentIsIdentity(todos[1..], id);
      assert todos == [todos[0]] + todos[1..];
    }
  }

  /** A list without `id` is one `RemoveById` leaves alone, so a repeated
      delete of the same identifier changes nothing. */
  lemma RemoveIdempotent(todos: seq<Todo>, id: string)
    ensures RemoveById(RemoveById(todos, id), id) == RemoveById(todos, id)
  {
    var r := RemoveById(todos, id);
    forall i | 0 <= i < |r|
      ensures r[i].id != id
    {
      assert r[i] in multiset(r);
    }
    RemoveAbsentIsIdentity(r, id);
  }

  lemma {:induction false} SubsequenceKeepsUniqueIds(a: seq<Todo>, b: seq<Todo>)
    requires IsSubsequence(a, b) && UniqueIds(b)
    ensures UniqueIds(a)
    decreases |b|
  {
    if a != [] {
      assert b != [];
      assert UniqueIds(b[1..]) by {
        forall i, j | 0 <= i < j < |b[1..]|
          ensures b[1..][i].id != b[1..][j].id
        {
          assert b[i + 1].id != b[j + 1].id;
        }
      }
      if a[0] == b[0] && IsSubsequence(a[1..], b[1..]) {
        SubsequenceKeepsUniqueIds(a[1..], b[1..]);
        SubsequenceMembers(a[1..], b[1..]);
        forall j | 0 < j < |a|
          ensures a[0].id != a[j].id
        {
          assert a[1..][j - 1] in b[1..];
          var m :| 0 <= m < |b[1..]| && b[1..][m] == a[j];
          assert b[m + 1] == a[j];
        }
      } else {
        SubsequenceKeepsUniqueIds(a, b[1..]);
      }
    }
  }

  lemma {:induction false} SubsequenceMembers<T>(a: seq<T>, b: seq<T>)
    requires IsSubsequence(a, b)
    ensures forall x :: x in a ==> x in b
    decreases |b|
  {
    if a != [] {
      if a[0] == b[0] && IsSubsequence(a[1..], b[1..]) {
        SubsequenceMembers(a[1..], b[1..]);
        assert a == [a[0]] + a[1..];
      } else {
        SubsequenceMembers(a, b[1..]);
      }
    }
  }

  /** A delete keeps the identifiers of the list unique. */
  lemma RemoveKeepsUniqueIds(todos: seq<Todo>, id: string)
    requires UniqueIds(todos)
    ensures UniqueIds(RemoveById(todos, id))
  {
    SubsequenceKeepsUniqueIds(RemoveById(todos, id), todos);
  }

  /** With unique identifiers, deleting a present identifier removes exactly
      one task. */
  lemma {:induction false} RemoveOnePresent(todos: seq<Todo>, id: string)
    requires UniqueIds(todos) && HasId(todos, id)
    ensures |RemoveById(todos, id)| == |todos| - 1
  {
    assert todos == [todos[0]] + todos[1..];
    assert UniqueIds(todos[1..]) by {
      forall i, j | 0 <= i < j < |todos[1..]|
        ensures todos[1..][i].id != todos[1..][j].id
      {
        assert todos[i + 1].id != todos[j + 1].id;
      }
    }
    if todos[0].id == id {
      forall i | 0 <= i < |todos[1..]|
        ensures todos[1..][i].id != id
      {
        assert todos[0].id != todos[i + 1].id;
      }
      RemoveAbsentIsIdentity(todos[1..], id);
    } else {
      assert HasId(todos[1..], id) by {
        var i :| 0 <= i < |todos| && todos[i].id == id;
        assert todos[1..][i - 1].id == id;
      }
      RemoveOnePresent(todos[1..], id);
    }
  }

  /** A created task with an identifier new to the list keeps identifiers
      unique, and deleting it afterwards restores the list it joined. */
  lemma DeleteUndoesCreate(s: TodosState, t: Todo)
    requires !HasId(s.todos, t.id)
    ensures UniqueIds(s.todos) ==> UniqueIds(CreateTodo(s, Success(t)).state.todos)
    ensures DeleteTodo(CreateTodo(s, Success(t)).state, t.id, Success(())).state
         == TodosState(s.todos, s.loading, None)
  {
    var created := CreateTodo(s, Success(t)).state.todos;
    assert created == [t] + s.todos;
    if UniqueIds(s.todos) {
      forall i, j | 0 <= i < j < |created|
        ensures created[i].id != created[j].id
      {
        if i == 0 {
          assert created[j] == s.todos[j - 1];
        }
      }
    }
    assert created[1..] == s.todos;
    RemoveAbsentIsIdentity(s.todos, t.id);
  }
}
